=== FILE: README.md ===
# cuttlepool: a verified model of the connection pool and its linked queue

cuttlepool is a small Python library that pools SQL connections. A
`CuttlePool` keeps two collections:

- `_reference_pool`: every connection it created and still tracks, in creation order;
- `_pool`: a FIFO of idle connections, bounded by `capacity`.

While connections are handed out and returned, the pool tracks at most `capacity + overflow` connections (`_maxsize`). `_make_connection` itself has no bound, and every connection that fails `ping` is replaced by a newly created one.

`get_connection` works in this order:

1. It reclaims "lost" connections when the idle queue is empty. A lost connection is tracked, not queued and referenced by nobody else.
2. It takes the oldest idle connection.
3. Otherwise it creates a new one while under `_maxsize`.
4. Otherwise it waits for the timeout and fails.

It then checks the connection with the `ping` hook, replacing it if the hook rejects it. Finally it normalizes the connection and wraps it in a `PoolConnection`.

`put_connection` returns a connection to the queue. When the queue is full, it drops the connection and closes it instead. `PoolConnection.close` hands its connection back that way and then detaches itself from the pool. The package also ships `Queue`, a linked-list FIFO of `_Node` cells.

The project is organised as follows:

- `wrappers.dfy`: `Option`, `Result` and `Outcome`. These stand for `None` and for the exceptions the code raises.
- `linked_queue.dfy` (module `LinkedQueue`): `Queue` as a class over heap-allocated `Node`s.
  - Its ghost `Contents` and `Nodes` sequences and the object invariant `Valid()` tie the `start`/`end`/`next` pointers and the `size` counter to the abstract FIFO.
  - `Run` is the effect of a sequence of `push`/`pop` calls on the contents, `RunOps` makes those calls on a `Queue` and matches `Run`, and `RunIsFifo` states the FIFO order of `Run`.
- `pool_spec.dfy` (module `PoolSpec`): the pool's accounting on values.
  - `PoolState` holds the reference pool, the idle queue and the set of closed connections.
  - `Put` is `put_connection`, `RemoveFirst` is Python's `list.remove`, and `HarvestFrom`/`Harvest` are the reclamation loop.
  - The module also holds the lemmas about what this accounting guarantees.
- `cuttle_pool.dfy` (module `CuttlePoolModel`): the classes `CuttlePool` and `PoolConnection`.
  - Their methods update `referencePool` and `idle` in place.
  - Their `ensures` tie the new state to the `PoolSpec` functions of the old state.
  - `Maxsize()` and `Size()` are `_maxsize` and `_size`.
- `pool_scenarios.dfy` (module `PoolScenarios`): the runs of the test suite, on a pool with capacity 1, overflow 1 and a one-second timeout.

The model replaces what the pool gets from outside its own code with parameters or ghost state:

- The driver's `connect` allocates a fresh `Connection` object.
- `close()` on a connection is recorded in the ghost set `closed`.
- The `normalize_connection` hook is recorded in the ghost log `normalized`.
- The `ping` hook is a parameter of `GetConnection`.
- The interpreter's reference count (`sys.getrefcount`, cuttlepool.py:105-107) is the parameter `inUse`: the connections referenced from outside the pool, such as those held by live `PoolConnection`s. A connection is lost when it is tracked, not queued and not in `inUse`.

Each exception becomes a case of `PoolSpec.Error`.

The blocking `get(timeout=...)` of step 4 runs while the pool's lock is held, so `put_connection` cannot get in and no connection can arrive. `ExpiredWait` gives its outcome:

- no timeout: it never returns (`WaitsForever`);
- a negative timeout: Python's queue raises `ValueError` (`NegativeTimeout`);
- any other timeout: the pool reports that it is depleted (`Depleted`).

Some behaviours of the code are easy to miss. The model follows the code:

- A negative timeout is accepted by the constructor.
- Reclamation runs whenever the queue is empty, before a new connection is created.
- A connection that fails `ping` is dropped without being closed, and its replacement is not pinged.
- A second `PoolConnection.close` fails with `AttributeError` (`PoolDetached`), not with a dedicated error.
- `put_connection` checks only membership in the reference pool. Putting a connection twice can queue a connection the pool no longer tracks (`DoublePutUntracksQueued`). If that connection later fails `ping`, `list.remove` raises (`NotInReferencePool`).
- The reclamation loop walks `range(len(_reference_pool))`, computed once, while `put_connection` may remove entries from that same list. A removal shifts the next connection into the slot just visited, so that connection is skipped. Reading past the new end raises `IndexError` (`IndexOutOfRange`). `HarvestOverrun` exhibits both.

## Model

| member | source | states |
|---|---|---|
| LinkedQueue.Node.constructor | cuttlepool/queue.py:7-10 | a new cell holds the item and has no successor |
| LinkedQueue.Queue.constructor | cuttlepool/queue.py:18-20 | a new queue is valid, empty, with `size` 0 |
| LinkedQueue.Queue.Top | cuttlepool/queue.py:22-30 | fails with the empty-queue error exactly when the queue is empty, otherwise returns the earliest item still queued; reads only |
| LinkedQueue.Queue.Pop | cuttlepool/queue.py:32-43 | on an empty queue fails and changes nothing; otherwise returns the first item, removes it and decrements `size`; the invariant linking `size` cells from `start` to `end` is kept |
| LinkedQueue.Queue.Push | cuttlepool/queue.py:45-59 | appends the item at the back and increments `size`; on an empty queue `start` and `end` become the same cell, otherwise they differ |
| LinkedQueue.RunOps | cuttlepool/queue.py:32-59 | making a sequence of `push`/`pop` calls on a `Queue` leaves the contents, and returns the popped items, that `Run` gives for the old contents |
| LinkedQueue.RunIsFifo | cuttlepool/queue.py:32-59 | for any sequence of pushes and pops (as `Run` gives them, and so as `RunOps` performs them), the popped items followed by those left queued are the initial contents followed by everything pushed, in order (FIFO) |
| LinkedQueue.PopsInPushOrder | tests/test_queue.py:71-82 | two pushes then two pops return the items in push order and leave `size` 0 |
| LinkedQueue.TopOfEmptyQueue | tests/test_queue.py:52-57 | `top` on a new queue fails with the empty-queue error |
| LinkedQueue.PopOfEmptyQueue | tests/test_queue.py:85-90 | `pop` on a new queue fails with the empty-queue error and the queue stays empty |
| PoolSpec.RemoveFirst | cuttlepool.py:225 | `list.remove` of a member: one element shorter, the multiset of elements loses exactly one copy of `c` |
| PoolSpec.FirstIndex | cuttlepool.py:225 | the index `list.remove` acts on: it holds `c` and no earlier index does |
| PoolSpec.RemoveFirstKeepsOrder | cuttlepool.py:225 | `list.remove` cuts out exactly the first occurrence of `c`: the elements before it and after it stay, in their order |
| PoolSpec.RemoveFirstDistinct | cuttlepool.py:225 | on a list without repetitions, the removal keeps it repetition-free and keeps exactly the other elements |
| PoolSpec.RemoveFirstAppended | cuttlepool.py:171-173 | removing a connection appended last (and present nowhere else) gives back the list before the append |
| PoolSpec.DropKeepsTracked | cuttlepool.py:171-173 | dropping a tracked, unqueued connection keeps the accounting invariant |
| PoolSpec.Put | cuttlepool.py:205-230 | refuses (`NotCreatedByPool`) exactly the connections not in the reference pool; an accepted connection ends up queued or closed, no connection starts being tracked or is reopened, and a queue within capacity stays within it; with room the connection joins the back of the queue, with a full queue one copy of it leaves the reference pool (as a multiset) and it is closed |
| PoolSpec.PutAccounting | cuttlepool.py:221-230 | with room, the connection is queued last and the size is unchanged; with a full queue, the size drops by one, the connection is no longer tracked and is closed, and the queue is unchanged |
| PoolSpec.PutKeepsTracked | cuttlepool.py:213-230 | putting a tracked connection that is not queued keeps every queued connection tracked, the queue repetition-free and within capacity, and never grows the size |
| PoolSpec.DoublePutUntracksQueued | cuttlepool.py:217-225 | with capacity 1, putting the same connection twice leaves it queued but no longer tracked, and closed |
| PoolSpec.PutTwoCreated | tests/test_cuttlepool_class.py:280-293 | with capacity 1, putting two created connections leaves one queued and one tracked; the second is closed |
| PoolSpec.LostAmong | cuttlepool.py:96-107 | the result holds exactly the given connections that are neither queued nor in use, is empty when there are none, and is no longer than the input |
| PoolSpec.LostAmongInOrder | cuttlepool.py:104-107 | on a reference pool without repetitions, the lost connections have no repetitions and keep the reference pool's order (oldest first) |
| PoolSpec.Lost | cuttlepool.py:96-107 | the lost connections are exactly the tracked ones that are neither queued nor in use; the list is empty when every tracked connection is queued or in use |
| PoolSpec.PutSparesInUse | cuttlepool.py:205-230 | `put_connection` of a connection nobody else references leaves every connection in use alone (`Spares`) |
| PoolSpec.HarvestSparesInUse | cuttlepool.py:104-107 | from any index, the reclamation loop leaves every connection in use alone, only stops tracking and closes connections, and only appends to the queue (`Spares`) |
| PoolSpec.HarvestKeepsTracked | cuttlepool.py:104-107 | the reclamation loop keeps the accounting invariant, never grows the reference pool and never un-closes a connection |
| PoolSpec.HarvestNeverGrows | cuttlepool.py:104-107 | the reclamation loop keeps the reference pool repetition-free, never grows it and keeps the queue within capacity |
| PoolSpec.LostAmongPrefix | cuttlepool.py:104-107 | a prefix of the reference pool has no more lost connections than the whole |
| PoolSpec.LostAmongStep | cuttlepool.py:105-107 | with nothing queued, one more index visited adds that connection to the lost ones exactly when it is not in use |
| PoolSpec.HarvestStepQueues | cuttlepool.py:105-107 | one turn of the loop, while the lost connections fit, queues the visited connection if it is lost and otherwise changes nothing |
| PoolSpec.HarvestFromQueuesLost | cuttlepool.py:104-107 | from any index, the loop queues the remaining lost connections in order and completes |
| PoolSpec.HarvestQueuesLost | cuttlepool.py:104-107 | from an empty queue, when the lost connections fit, the loop queues exactly the lost connections, oldest first, changes nothing else and does not overrun |
| PoolSpec.HarvestNoneLost | cuttlepool.py:104-107 | when every tracked connection is in use, reclamation changes nothing |
| PoolSpec.OverrunFirstPut | cuttlepool.py:221-222 | the first `put_connection` of the overrun run queues the connection |
| PoolSpec.OverrunSecondPut | cuttlepool.py:221-230 | the second `put_connection` of the overrun run finds the queue full, drops the middle connection keeping the other two in order, and closes it |
| PoolSpec.RemoveMiddle | cuttlepool.py:225 | removing the middle of three connections keeps the other two in order |
| PoolSpec.HarvestOverrun | cuttlepool.py:105-107 | with capacity 1 and three lost connections, the loop queues the first, drops and closes the second, skips the third and reads past the end (`IndexOutOfRange`); the third stays lost |
| PoolSpec.HarvestIfEmpty | cuttlepool.py:153-154 | the first step of a request never touches a connection in use, never reopens a connection or starts tracking one, and only appends to the queue (`Spares`); when the queue is not empty it changes nothing |
| PoolSpec.LostReusedFirst | cuttlepool.py:153-157 | from an empty queue with lost connections that fit, reclamation completes without changing the reference pool, and the connection then taken is the oldest lost one, which is tracked and not in use |
| PoolSpec.DepletedPoolWaits | cuttlepool.py:151-169 | with an empty queue and every tracked connection in use, the first step of a request reclaims nothing and leaves the state as it was; that a pool with no room then ends in the timed wait is `TakeConnection`'s last ensures, and the lemma restates the wait's outcome (`ExpiredWait`: never returns without a timeout, `Depleted` with a non-negative one) |
| CuttlePoolModel.CuttlePool.Init | cuttlepool.py:36-59 | a new pool has the given parameters, nothing tracked, queued, closed or normalized, and satisfies every invariant |
| CuttlePoolModel.CuttlePool.New | cuttlepool.py:36-59 | capacity ≤ 0 is refused first, then overflow < 0; otherwise a fresh empty pool with the given parameters, the timeout unchecked; the parameters default to capacity 5, overflow 1 and no timeout |
| CuttlePoolModel.CuttlePool.MakeConnection | cuttlepool.py:79-90 | returns a fresh connection appended to the reference pool; nothing else changes; invariants kept |
| CuttlePoolModel.CuttlePool.PutConnection | cuttlepool.py:205-230 | the new state is `Put` of the old state; a refused connection leaves the state unchanged; `Valid()` and the `_maxsize` bound are kept; `Consistent()` is kept when the connection was not already queued |
| CuttlePoolModel.CuttlePool.HarvestLostConnections | cuttlepool.py:92-107 | the new state is `Harvest` of the old state, and the call fails with `IndexOutOfRange` exactly when the loop overruns |
| CuttlePoolModel.CuttlePool.CloseConnections | cuttlepool.py:109-126 | every connection tracked before the call is closed; the reference pool and the queue end up empty |
| CuttlePoolModel.CuttlePool.EmptyPool | cuttlepool.py:128-132 | the same as `CloseConnections` |
| CuttlePoolModel.CuttlePool.TakeConnection | cuttlepool.py:151-169 | after reclaiming on an empty queue, takes the oldest queued connection (which, when it was queued only once, is then no longer queued), or a fresh untracked-before connection while under `_maxsize`, or fails with the expired-wait error or `IndexOutOfRange`; `Valid()` and the `_maxsize` bound are kept, and `Consistent()` when it held before |
| CuttlePoolModel.CuttlePool.GetConnection | cuttlepool.py:134-177 | the outcome in every case: overrun, expired wait, reuse of the oldest queued connection, creation of a fresh one; a rejected connection is replaced by a fresh, different one in the reference pool without being closed, and is itself no longer tracked, and a fresh connection rejected by `ping` leaves only its replacement, so the size is unchanged; a rejected connection that is no longer tracked raises `NotInReferencePool`; every handle returned is fresh and wraps the normalized connection; `Valid()` and the `_maxsize` bound are kept, and `Consistent()` when it held before |
| CuttlePoolModel.PoolConnection.constructor | cuttlepool.py:244-251 | a new handle holds the given connection and pool |
| CuttlePoolModel.PoolConnection.Close | cuttlepool.py:274-281 | with no pool, fails with `PoolDetached`; with no connection, does nothing; otherwise the pool's state becomes `Put` of its old state, and on success both fields are cleared, while a refusal propagates and leaves the handle as it was |
| PoolScenarios.DefaultPool | cuttlepool.py:36-37 | a pool built with the defaults has capacity 5, overflow 1, no timeout and `_maxsize` 6 |
| PoolScenarios.RefusedArguments | tests/test_cuttlepool_class.py:85-91 | a capacity of 0 is refused, and a negative overflow with the default capacity is refused for the overflow |
| PoolScenarios.PutHandlesOverflow | tests/test_cuttlepool_class.py:280-293 | two created connections put back leave one queued and one tracked |
| PoolScenarios.ReuseReturnedConnection | tests/test_cuttlepool_class.py:136-146 | a connection handed out and closed is the one handed out next |
| PoolScenarios.TwoHandedOut | tests/test_cuttlepool_class.py:148-151 | two requests on a new pool, the first connection still referenced during the second, create two distinct tracked connections and queue nothing |
| PoolScenarios.DepletedPool | tests/test_cuttlepool_class.py:181-184 | the third request on a pool of two connections in use fails with `Depleted` |
| PoolScenarios.GetLostConnection | tests/test_cuttlepool_class.py:148-160 | a connection whose handle let go of it is reclaimed and handed out by the next request |
| PoolScenarios.CloseTwice | cuttlepool.py:274-281 | the first `close` queues the connection and clears the handle (as tests/test_poolconnection_class.py:37-47 checks); a second fails with `PoolDetached`, because the handle has no pool left |
| PoolScenarios.EmptyAfterReturns | tests/test_cuttlepool_class.py:302-312 | after connections are handed out and returned, `empty_pool` leaves nothing tracked or queued |

## Left out

- Concurrency: the `RLock` (cuttlepool.py:59) and the blocking timed wait (cuttlepool.py:166). Every operation runs as one atomic step. The wait is modelled only by how it ends on a depleted pool (`ExpiredWait`), since the held lock keeps any put from arriving.
- `sys.getrefcount`: the CPython reference count is replaced by the caller-supplied set `inUse`. References the interpreter itself creates are not modelled.
- The driver: `connect` cannot fail in the model, and `connection_arguments` and the keyword arguments passed to `connect` are left out.
- Hook bodies: `ping` is an arbitrary total function, `normalize_connection` is recorded as a call only, and their `warnings.warn` calls are left out.
- Closing a connection is recorded, not performed. Exceptions raised by `close()`, which the pool swallows, are left out.
- The `isinstance` checks (cuttlepool.py:214, 245-248, 278) and the connection class recorded on the first creation are left out. The only rejection modelled in `put_connection` is "not created by this pool". The `TypeError` that the check at cuttlepool.py:214 raises before any connection exists is not modelled.
- `PoolConnection` attribute forwarding (`__getattr__`, `__setattr__`), `__enter__`/`__exit__` and `CuttlePool.__del__` are Python object mechanics with no pool accounting of their own.
- The `PoolConnection` constructor's type checks are left out. Its construction by `get_connection` is modelled.
- The timeout type is modelled as an optional integer; fractional timeouts are not modelled.
- cuttlepool/cuttlepool.py and cuttlepool/__init__.py are not part of this model. The first is an unfinished stub with only a capacity check, and the second only re-exports names.
- The release scripts, setup.py, tests/test_cuttlepool.py, tests/mysql/, tests/ambiguous/ and tests/mockresource.py are not part of this model. They are release tooling, or tests of a different interface.
- CuttlePoolModel.CuttlePool.GetConnection: `ensures` clauses whose conclusion is `Consistent()` hold only when the pool was consistent before the call. Once a double put has queued an untracked connection, the model states only that the pool stays `Valid()`.
- CuttlePoolModel.CuttlePool.TakeConnection: the same holds, and a connection taken from the queue is promised to be no longer queued only when the pool was consistent. A connection put twice into a queue with room for both is queued twice, and taking one copy leaves the other queued.

=== FILE: cuttle_pool.dfy ===
/**
 * The classes `CuttlePool` and `PoolConnection` of cuttlepool.py.
 *
 * A pool keeps `referencePool` (`_reference_pool`, every connection it
 * created and still tracks) and `idle` (`_pool`, the idle FIFO bounded by
 * `capacity`).  Its methods change these fields exactly as the functions of
 * `PoolSpec` say, and the lemmas there state what the accounting guarantees.
 *
 * Calls the pool makes into code it does not own are modelled as follows:
 * the driver's `connect` allocates a fresh `Connection`; `close()` on a
 * connection is recorded in the ghost set `closed`; the `normalize_connection`
 * hook is recorded in the ghost log `normalized`; the `ping` hook is a
 * parameter of `GetConnection`; and the interpreter's reference count, which
 * the harvest reads, is the parameter `inUse`: the connections referenced
 * from outside the pool at the time of the call.
 */
module CuttlePoolModel {
  import opened Wrappers
  import opened PoolSpec

  /** A raw connection returned by the driver's `connect`; opaque to the pool. */
  class Connection {
    constructor ()
    {
    }
  }

  class CuttlePool {
    const capacity: nat
    const overflow: nat
    const timeout: Option<int>

    var referencePool: seq<Connection>
    var idle: seq<Connection>
    ghost var closed: set<Connection>
    ghost var normalized: seq<Connection>

    /** The accounting state the functions of `PoolSpec` act on. */
    ghost function State(): PoolState<Connection>
      reads this
    {
      PoolState(referencePool, idle, closed)
    }

    /**
     * The state once the first half of `get_connection` took `c` out of the
     * harvested state `h`: the oldest queued connection, else a new one.
     */
    ghost function AfterTake(h: PoolState<Connection>, c: Connection): PoolState<Connection>
    {
      if h.idle != [] then h.(idle := h.idle[1..]) else h.(refPool := h.refPool + [c])
    }

    /** `_maxsize`: the most connections the pool creates on its own. */
    function Maxsize(): nat
    {
      capacity + overflow
    }

    /** `_size`: the number of connections the pool tracks. */
    function Size(): nat
      reads this
    {
      |referencePool|
    }

    /**
     * What holds after every operation: the constructor's checks passed, the
     * idle queue is within its bound, and no connection is tracked twice.
     */
    ghost predicate Valid()
      reads this
    {
      capacity >= 1 && |idle| <= capacity && Distinct(referencePool)
    }

    /** Every queued connection is tracked, and none is queued twice. */
    ghost predicate Consistent()
      reads this
    {
      Tracked(State(), capacity)
    }

    /** The pool tracks no more than `capacity + overflow` connections. */
    ghost predicate WithinMaxsize()
      reads this
    {
      Size() <= Maxsize()
    }

    constructor Init(capacity: nat, overflow: nat, timeout: Option<int>)
      requires capacity >= 1
      ensures Valid() && Consistent() && WithinMaxsize()
      ensures this.capacity == capacity && this.overflow == overflow && this.timeout == timeout
      ensures referencePool == [] && idle == [] && closed == {} && normalized == []
    {
      this.capacity := capacity;
      this.overflow := overflow;
      this.timeout := timeout;
      referencePool := [];
      idle := [];
      closed := {};
      normalized := [];
    }

    /**
     * `CuttlePool(connect, capacity=5, overflow=1, timeout=None)`: a capacity
     * below 1 or a negative overflow is refused (capacity is checked first);
     * the timeout is stored without any check.
     */
    static method New(capacity: int := 5, overflow: int := 1, timeout: Option<int> := None)
      returns (r: Result<CuttlePool, Error>)
      ensures capacity <= 0 ==> r == Failure(CapacityNotPositive)
      ensures capacity > 0 && overflow < 0 ==> r == Failure(OverflowNegative)
      ensures capacity > 0 && overflow >= 0 ==>
        && r.Success? && fresh(r.value) && r.value.Valid()
        && r.value.Consistent() && r.value.WithinMaxsize()
        && r.value.capacity == capacity && r.value.overflow == overflow && r.value.timeout == timeout
        && r.value.Size() == 0 && r.value.idle == [] && r.value.closed == {} && r.value.normalized == []
    {
      if capacity <= 0 {
        return Failure(CapacityNotPositive);
      }
      if overflow < 0 {
        return Failure(OverflowNegative);
      }
      var pool := new CuttlePool.Init(capacity, overflow, timeout);
      r := Success(pool);
    }

    /** `_make_connection`: creates a connection and starts tracking it. */
    method MakeConnection() returns (c: Connection)
      requires Valid()
      modifies this
      ensures Valid() && fresh(c)
      ensures referencePool == old(referencePool) + [c]
      ensures idle == old(idle) && closed == old(closed) && normalized == old(normalized)
      ensures old(Consistent()) ==> Consistent()
    {
      c := new Connection();
      referencePool := referencePool + [c];
    }

    /**
     * `put_connection`: returns a connection to the idle queue, or drops and
     * closes it when the queue is full; a connection the pool does not track
     * is refused and nothing changes.
     */
    method PutConnection(c: Connection) returns (r: Outcome<Error>)
      requires Valid()
      modifies this
      ensures Valid() && normalized == old(normalized)
      ensures Put(old(State()), capacity, c).Failure? ==> r == Fail(NotCreatedByPool) && State() == old(State())
      ensures Put(old(State()), capacity, c).Success? ==> r == Pass && State() == Put(old(State()), capacity, c).value
      ensures old(Consistent()) && c !in old(idle) ==> Consistent()
      ensures old(WithinMaxsize()) ==> WithinMaxsize()
    {
      if c !in referencePool {
        return Fail(NotCreatedByPool);
      }
      if old(Consistent()) && c !in idle {
        PutKeepsTracked(State(), capacity, c);
      }
      PutAccounting(State(), capacity, c);
      if |idle| >= capacity {
        RemoveFirstDistinct(referencePool, c);
      }
      if |idle| < capacity {
        idle := idle + [c];
      } else {
        referencePool := RemoveFirst(referencePool, c);
        // connection.close(); any exception it raises is swallowed
        closed := closed + {c};
      }
      r := Pass;
    }

    /**
     * `_harvest_lost_connections`: walks the reference pool by index, over the
     * length it had when the loop started, and hands every lost connection to
     * `PutConnection`, which may shorten the list being walked.
     */
    method HarvestLostConnections(inUse: set<Connection>) returns (r: Outcome<Error>)
      requires Valid()
      modifies this
      ensures Valid() && normalized == old(normalized)
      ensures State() == Harvest(old(State()), capacity, inUse).state
      ensures r == if Harvest(old(State()), capacity, inUse).overran then Fail(IndexOutOfRange) else Pass
    {
      var n := |referencePool|;
      var idx := 0;
      while idx < n
        invariant 0 <= idx <= n
        invariant Valid() && normalized == old(normalized)
        invariant HarvestFrom(State(), capacity, inUse, idx, n) == Harvest(old(State()), capacity, inUse)
      {
        if idx >= |referencePool| {
          return Fail(IndexOutOfRange);
        }
        var c := referencePool[idx];
        if c !in idle && c !in inUse {
          var _ := PutConnection(c);
        }
        idx := idx + 1;
      }
      r := Pass;
    }

    /**
     * `_close_connections`: closes every tracked connection, drains the idle
     * queue and forgets every connection.  A queued connection the pool no
     * longer tracks is not closed.
     */
    method CloseConnections()
      requires Valid()
      modifies this
      ensures Valid() && Consistent() && WithinMaxsize()
      ensures referencePool == [] && idle == [] && Size() == 0
      ensures closed == old(closed) + set c | c in old(referencePool)
      ensures normalized == old(normalized)
    {
      var i := 0;
      while i < |referencePool|
        invariant 0 <= i <= |referencePool|
        invariant referencePool == old(referencePool) && idle == old(idle)
        invariant closed == old(closed) + set k | 0 <= k < i :: referencePool[k]
        invariant Valid() && normalized == old(normalized)
      {
        // con.close(); any exception it raises is swallowed
        closed := closed + {referencePool[i]};
        i := i + 1;
      }
      assert (set k | 0 <= k < |referencePool| :: referencePool[k]) == set c | c in referencePool;
      while |idle| > 0
        invariant Valid() && referencePool == old(referencePool)
        invariant closed == old(closed) + set c | c in old(referencePool)
        invariant normalized == old(normalized)
        decreases |idle|
      {
        idle := idle[1..];
      }
      referencePool := [];
    }

    /** `empty_pool`: the same as `CloseConnections`. */
    method EmptyPool()
      requires Valid()
      modifies this
      ensures Valid() && Consistent() && WithinMaxsize()
      ensures referencePool == [] && idle == [] && Size() == 0
      ensures closed == old(closed) + set c | c in old(referencePool)
      ensures normalized == old(normalized)
    {
      CloseConnections();
    }

    /**
     * The first half of `get_connection`: harvests when the idle queue is
     * empty, then takes the oldest queued connection, or creates one while the
     * pool tracks fewer than `Maxsize()` connections, or lets the timed wait
     * expire (nothing can be put back while the lock is held).  Let `h` be the
     * state after the harvest.
     */
    method TakeConnection(inUse: set<Connection>) returns (r: Result<Connection, Error>)
      requires Valid()
      modifies this
      ensures Valid() && normalized == old(normalized)
      ensures old(Consistent()) ==> Consistent()
      ensures old(Consistent()) && r.Success? ==> r.value !in idle
      ensures old(WithinMaxsize()) ==> WithinMaxsize()
      // the harvest ran past the end of the shortened list
      ensures var h := HarvestIfEmpty(old(State()), capacity, inUse);
        h.overran ==> r == Failure(IndexOutOfRange) && State() == h.state
      // reuse the oldest queued connection
      ensures var h := HarvestIfEmpty(old(State()), capacity, inUse);
        !h.overran && h.state.idle != [] ==>
          r == Success(h.state.idle[0]) && State() == h.state.(idle := h.state.idle[1..])
      // create a new connection
      ensures var h := HarvestIfEmpty(old(State()), capacity, inUse);
        !h.overran && h.state.idle == [] && |h.state.refPool| < Maxsize() ==>
          && r.Success? && fresh(r.value) && r.value !in h.state.refPool
          && State() == h.state.(refPool := h.state.refPool + [r.value])
      // nothing queued and no room to create: the wait expires
      ensures var h := HarvestIfEmpty(old(State()), capacity, inUse);
        !h.overran && h.state.idle == [] && |h.state.refPool| >= Maxsize() ==>
          r == Failure(ExpiredWait(timeout)) && State() == h.state
    {
      ghost var s0 := State();
      ghost var h := HarvestIfEmpty(s0, capacity, inUse);
      if Consistent() {
        HarvestKeepsTracked(s0, capacity, inUse, 0, |referencePool|);
      }
      HarvestNeverGrows(s0, capacity, inUse, 0, |referencePool|);
      if |idle| == 0 {
        var harvested := HarvestLostConnections(inUse);
        if harvested.Fail? {
          return Failure(harvested.error);
        }
      }
      assert State() == h.state && !h.overran;
      if |idle| > 0 {
        r := Success(idle[0]);
        idle := idle[1..];
        assert old(Consistent()) ==> forall k :: 0 <= k < |idle| ==> idle[k] != r.value;
      } else if |referencePool| < Maxsize() {
        var c := MakeConnection();
        r := Success(c);
      } else {
        r := Failure(ExpiredWait(timeout));
      }
    }

    /**
     * `get_connection`.  Let `h` be the state after the harvest and `t` the
     * state once `TakeConnection` took the connection `obtained` out of it.
     * If `ping` rejects `obtained`, it is dropped from the reference pool
     * without being closed and a new connection, not pinged, takes its place;
     * when it is no longer tracked (it was queued twice), the removal fails.
     * The connection returned is normalized and wrapped in a fresh
     * `PoolConnection`.
     */
    method GetConnection(inUse: set<Connection>, ping: Connection -> bool)
      returns (r: Result<PoolConnection, Error>, ghost obtained: Option<Connection>)
      requires Valid()
      modifies this
      ensures Valid()
      ensures old(Consistent()) ==> Consistent()
      ensures old(WithinMaxsize()) ==> WithinMaxsize()
      // no connection to hand out: the harvest overran or the wait expired
      ensures var h := HarvestIfEmpty(old(State()), capacity, inUse);
        h.overran ==> r == Failure(IndexOutOfRange) && State() == h.state && normalized == old(normalized)
      ensures var h := HarvestIfEmpty(old(State()), capacity, inUse);
        !h.overran && h.state.idle == [] && |h.state.refPool| >= Maxsize() ==>
          r == Failure(ExpiredWait(timeout)) && State() == h.state && normalized == old(normalized)
      // where the connection comes from: the oldest queued one, else a new one
      ensures var h := HarvestIfEmpty(old(State()), capacity, inUse);
        !h.overran && h.state.idle != [] ==> obtained == Some(h.state.idle[0])
      ensures var h := HarvestIfEmpty(old(State()), capacity, inUse);
        !h.overran && h.state.idle == [] && |h.state.refPool| < Maxsize() ==>
          obtained.Some? && fresh(obtained.value)
      // it passes the ping and is handed out
      ensures var h := HarvestIfEmpty(old(State()), capacity, inUse);
        !h.overran && (h.state.idle != [] || |h.state.refPool| < Maxsize()) && ping(obtained.value) ==>
          r.Success? && r.value.connection == obtained.value && State() == AfterTake(h.state, obtained.value)
      // it fails the ping and a new connection takes its place
      ensures var h := HarvestIfEmpty(old(State()), capacity, inUse);
        !h.overran && (h.state.idle != [] || |h.state.refPool| < Maxsize()) && !ping(obtained.value) ==>
        var t := AfterTake(h.state, obtained.value);
        obtained.value in t.refPool ==>
          && r.Success? && fresh(r.value.connection)
          && r.value.connection != obtained.value && obtained.value !in referencePool
          && referencePool == RemoveFirst(t.refPool, obtained.value) + [r.value.connection]
          && idle == t.idle && closed == t.closed
      // a new connection that fails the ping leaves only its replacement behind
      ensures var h := HarvestIfEmpty(old(State()), capacity, inUse);
        !h.overran && h.state.idle == [] && |h.state.refPool| < Maxsize() && !ping(obtained.value) ==>
          r.Success? && referencePool == h.state.refPool + [r.value.connection]
      // it fails the ping and is no longer tracked: the removal raises
      ensures var h := HarvestIfEmpty(old(State()), capacity, inUse);
        !h.overran && (h.state.idle != [] || |h.state.refPool| < Maxsize()) && !ping(obtained.value) ==>
        var t := AfterTake(h.state, obtained.value);
        obtained.value !in t.refPool ==>
          r == Failure(NotInReferencePool) && State() == t && normalized == old(normalized)
      // what every returned handle is
      ensures r.Success? ==>
        && fresh(r.value) && r.value.pool == this && r.value.connection != null
        && normalized == old(normalized) + [r.value.connection]
    {
      ghost var h := HarvestIfEmpty(State(), capacity, inUse);
      var taken := TakeConnection(inUse);
      if taken.Failure? {
        return Failure(taken.error), None;
      }
      var connection := taken.value;
      obtained := Some(connection);
      ghost var t := AfterTake(h.state, connection);
      assert State() == t;
      if !ping(connection) {
        if connection !in referencePool {
          return Failure(NotInReferencePool), obtained;
        }
        if h.state.idle == [] {
          RemoveFirstAppended(h.state.refPool, connection);
        }
        RemoveFirstDistinct(referencePool, connection);
        if old(Consistent()) {
          DropKeepsTracked(State(), capacity, connection);
        }
        referencePool := RemoveFirst(referencePool, connection);
        connection := MakeConnection();
      }
      normalized := normalized + [connection];
      var handle := new PoolConnection(connection, this);
      r := Success(handle);
    }
  }

  /** `PoolConnection`: the handle `GetConnection` returns around a connection. */
  class PoolConnection {
    var connection: Connection?
    var pool: CuttlePool?

    constructor (connection: Connection, pool: CuttlePool)
      ensures this.connection == connection && this.pool == pool
    {
      this.connection := connection;
      this.pool := pool;
    }

    /**
     * `close`: hands the connection back through `PutConnection` and then
     * clears both fields; an error from `PutConnection` propagates and leaves
     * the handle as it was.  A handle whose connection was cleared does
     * nothing, and closing a handle a second time fails, because its pool is
     * gone.
     */
    method Close() returns (r: Outcome<Error>)
      requires pool != null ==> pool.Valid()
      modifies this, pool
      ensures old(pool) == null ==> r == Fail(PoolDetached) && connection == old(connection) && pool == null
      ensures old(pool) != null && old(connection) == null ==>
        r == Pass && pool == old(pool) && connection == null && unchanged(old(pool))
      ensures old(pool) != null && old(connection) != null ==>
        var p := Put(old(pool.State()), old(pool).capacity, old(connection));
        && old(pool).Valid() && old(pool).normalized == old(pool.normalized)
        && (p.Failure? ==>
              r == Fail(p.error) && connection == old(connection) && pool == old(pool)
              && old(pool).State() == old(pool.State()))
        && (p.Success? ==>
              r == Pass && connection == null && pool == null && old(pool).State() == p.value)
    {
      if pool == null {
        return Fail(PoolDetached);
      }
      if connection == null {
        return Pass;
      }
      r := pool.PutConnection(connection);
      if r.Pass? {
        connection := null;
        pool := null;
      }
    }
  }
}

=== FILE: linked_queue.dfy ===
/**
 * The linked-list FIFO of `cuttlepool/queue.py`: a `Queue` keeps a pointer to
 * its first and its last `_Node`, and a `size` counter.  `push` links a new node
 * behind the last one, `pop` unlinks the first one, `top` reads it.
 *
 * The abstract value of a queue is the ghost sequence `Contents` (first item
 * first).  The ghost sequence `Nodes` lists the cells from `start` to `end`, so
 * that the object invariant can say that exactly `size` cells are linked, in
 * order, from `start` to `end`.
 */
module LinkedQueue {
  import opened Wrappers

  /** The `ValueError("Queue is empty")` raised by `top` and `pop`. */
  datatype QueueError = QueueEmpty

  /** A cell of the list (`_Node`). */
  class Node<T> {
    var item: T
    var next: Node?<T>

    constructor (item: T)
      ensures this.item == item && next == null
    {
      this.item := item;
      next := null;
    }
  }

  class Queue<T> {
    var start: Node?<T>
    var end: Node?<T>
    var size: nat

    ghost var Contents: seq<T>
    ghost var Nodes: seq<Node<T>>
    ghost var Repr: set<object>

    /**
     * `size` cells, pairwise distinct, are linked from `start` to `end`; the
     * last one has no successor.  When the queue is empty `start` is null, and
     * `end` may still point at the cell popped last: nothing reads it then,
     * because `Push` tests `size == 0` first.
     */
    ghost predicate Valid()
      reads this, Repr
    {
      && this in Repr
      && |Nodes| == size == |Contents|
      && (forall i :: 0 <= i < size ==> Nodes[i] in Repr)
      && (forall i, j :: 0 <= i < j < size ==> Nodes[i] != Nodes[j])
      && (forall i :: 0 <= i < size ==> Nodes[i].item == Contents[i])
      && (forall i :: 0 <= i < size - 1 ==> Nodes[i].next == Nodes[i + 1])
      && (size == 0 ==> start == null)
      && (size > 0 ==> start == Nodes[0] && end == Nodes[size - 1] && end.next == null)
    }

    constructor ()
      ensures Valid() && fresh(Repr)
      ensures Contents == [] && size == 0
    {
      start, end := null, null;
      size := 0;
      Contents, Nodes := [], [];
      Repr := {this};
    }

    /** The first item still queued (`top`), or the empty-queue error. */
    function Top(): (r: Result<T, QueueError>)
      requires Valid()
      reads this, Repr
      ensures r.Failure? <==> Contents == []
      ensures r.Failure? ==> r.error == QueueEmpty
      ensures r.Success? ==> r.value == Contents[0]
    {
      if size == 0 then Failure(QueueEmpty) else Success(start.item)
    }

    /** Removes and returns the first item; on an empty queue nothing changes. */
    method Pop() returns (r: Result<T, QueueError>)
      requires Valid()
      modifies this
      ensures Valid() && Repr == old(Repr)
      ensures old(size) == 0 ==> r == Failure(QueueEmpty) && Contents == old(Contents) && size == 0
      ensures old(size) > 0 ==> r == Success(old(Contents)[0])
      ensures old(size) > 0 ==> Contents == old(Contents)[1..] && size == old(size) - 1
    {
      if size == 0 {
        return Failure(QueueEmpty);
      }
      var node := start;
      start := node.next;
      size := size - 1;
      Contents := Contents[1..];
      Nodes := Nodes[1..];
      r := Success(node.item);
    }

    /** Appends `item` behind the last one. */
    method Push(item: T)
      requires Valid()
      modifies Repr
      ensures Valid() && fresh(Repr - old(Repr))
      ensures Contents == old(Contents) + [item]
      ensures size == old(size) + 1
      ensures old(size) == 0 ==> start == end
      ensures old(size) > 0 ==> start != end
    {
      var node := new Node(item);
      if size == 0 {
        start, end := node, node;
      } else {
        end.next := node;
        end := node;
      }
      size := size + 1;
      Contents := Contents + [item];
      Nodes := Nodes + [node];
      Repr := Repr + {node};
    }
  }

  /** A call made on a queue: `push(item)` or `pop()`. */
  datatype Op<T> = PushOp(item: T) | PopOp

  /** The items a sequence of calls pushes, in call order. */
  function Pushed<T>(ops: seq<Op<T>>): seq<T>
  {
    if ops == [] then []
    else (if ops[0].PushOp? then [ops[0].item] else []) + Pushed(ops[1..])
  }

  /**
   * The queue contents left after `ops` starting from `contents`, and the items
   * the successful `pop` calls returned, in call order; each step is what
   * `Queue.Push` and `Queue.Pop` promise (a `pop` on an empty queue returns
   * nothing and changes nothing).
   */
  function Run<T>(contents: seq<T>, ops: seq<Op<T>>): (seq<T>, seq<T>)
    decreases |ops|
  {
    if ops == [] then (contents, [])
    else match ops[0]
      case PushOp(x) => Run(contents + [x], ops[1..])
      case PopOp =>
        if contents == [] then Run(contents, ops[1..])
        else
          var (rest, popped) := Run(contents[1..], ops[1..]);
          (rest, [contents[0]] + popped)
  }

  /**
   * FIFO: whatever was queued, followed by everything pushed, comes out as the
   * items popped followed by the items still queued, in the same order.
   */
  lemma {:induction false} RunIsFifo<T>(contents: seq<T>, ops: seq<Op<T>>)
    ensures Run(contents, ops).1 + Run(contents, ops).0 == contents + Pushed(ops)
    decreases |ops|
  {
    if ops != [] {
      match ops[0]
      case PushOp(x) =>
        RunIsFifo(contents + [x], ops[1..]);
      case PopOp =>
        if contents == [] {
          RunIsFifo(contents, ops[1..]);
        } else {
          RunIsFifo(contents[1..], ops[1..]);
          var (rest, popped) := Run(contents[1..], ops[1..]);
          calc {
            Run(contents, ops).1 + Run(contents, ops).0;
            [contents[0]] + popped + rest;
            [contents[0]] + (contents[1..] + Pushed(ops[1..]));
            { assert contents == [contents[0]] + contents[1..]; }
            contents + Pushed(ops);
          }
        }
    }
  }

  /**
   * Makes the calls `ops` on `q` in order and collects what the successful
   * pops return: the queue ends holding, and the pops return, what `Run` says,
   * so `RunIsFifo` applies to every run of a `Queue`.
   */
  method RunOps<T>(q: Queue<T>, ops: seq<Op<T>>) returns (popped: seq<T>)
    requires q.Valid()
    modifies q.Repr
    ensures q.Valid() && fresh(q.Repr - old(q.Repr))
    ensures (q.Contents, popped) == Run(old(q.Contents), ops)
  {
    popped := [];
    var i := 0;
    assert ops[0..] == ops;
    assert Run(q.Contents, ops).1 == popped + Run(q.Contents, ops).1;
    while i < |ops|
      invariant 0 <= i <= |ops|
      invariant q.Valid() && fresh(q.Repr - old(q.Repr))
      invariant Run(old(q.Contents), ops) == (Run(q.Contents, ops[i..]).0, popped + Run(q.Contents, ops[i..]).1)
    {
      assert ops[i..][1..] == ops[i + 1..];
      ghost var before := q.Contents;
      match ops[i] {
        case PushOp(x) =>
          q.Push(x);
          assert Run(before, ops[i..]) == Run(q.Contents, ops[i + 1..]);
        case PopOp =>
          var r := q.Pop();
          if r.Success? {
            var (rest, later) := Run(q.Contents, ops[i + 1..]);
            assert Run(before, ops[i..]) == (rest, [r.value] + later);
            assert popped + ([r.value] + later) == (popped + [r.value]) + later;
            popped := popped + [r.value];
          } else {
            assert Run(before, ops[i..]) == Run(q.Contents, ops[i + 1..]);
          }
      }
      i := i + 1;
    }
    assert ops[i..] == [];
    assert popped + [] == popped;
  }

  /** Two pushes, then two pops, return the items in the order pushed and leave the queue empty. */
  method PopsInPushOrder<T>(first: T, second: T) returns (a: Result<T, QueueError>, b: Result<T, QueueError>, size: nat)
    ensures a == Success(first) && b == Success(second) && size == 0
  {
    var q := new Queue<T>();
    q.Push(first);
    q.Push(second);
    a := q.Pop();
    b := q.Pop();
    size := q.size;
  }

  /** `top` on a fresh queue reports the empty-queue error. */
  method TopOfEmptyQueue<T>() returns (t: Result<T, QueueError>)
    ensures t == Failure(QueueEmpty)
  {
    var q := new Queue<T>();
    t := q.Top();
  }

  /** `pop` on a fresh queue reports the empty-queue error and leaves it empty. */
  method PopOfEmptyQueue<T>() returns (p: Result<T, QueueError>, size: nat)
    ensures p == Failure(QueueEmpty) && size == 0
  {
    var q := new Queue<T>();
    p := q.Pop();
    size := q.size;
  }
}

=== FILE: pool_scenarios.dfy ===
/**
 * Short runs of a pool built as the test suite builds it (capacity 1,
 * overflow 1, a timeout of one second, a `ping` hook that accepts every
 * connection), each ending in the outcome the corresponding test expects.
 */
module PoolScenarios {
  import opened Wrappers
  import opened PoolSpec
  import opened CuttlePoolModel

  /** The `ping` hook the tests install: every connection is open. */
  function AlwaysOpen(c: Connection): bool
  {
    true
  }

  /** A pool built with the constructor's defaults: capacity 5, overflow 1 and no timeout. */
  method DefaultPool() returns (ok: bool, capacity: nat, overflow: nat, timeout: Option<int>, maxsize: nat)
    ensures ok && capacity == 5 && overflow == 1 && timeout == None && maxsize == 6
  {
    var r := CuttlePool.New();
    ok := r.Success?;
    var pool := r.value;
    capacity, overflow, timeout, maxsize := pool.capacity, pool.overflow, pool.timeout, pool.Maxsize();
  }

  /**
   * The constructor's refusals: a capacity of 0, and a negative overflow with
   * the default capacity of 5, which passes the capacity check first.
   */
  method RefusedArguments() returns (zeroCapacity: Error, negativeOverflow: Error)
    ensures zeroCapacity == CapacityNotPositive && negativeOverflow == OverflowNegative
  {
    var r1 := CuttlePool.New(capacity := 0);
    zeroCapacity := r1.error;
    var r2 := CuttlePool.New(overflow := -1);
    negativeOverflow := r2.error;
  }

  /**
   * Two connections created and put back one after the other: the first is
   * queued, the second finds the queue full and is dropped.
   */
  method PutHandlesOverflow() returns (queued: nat, size: nat)
    ensures queued == 1 && size == 1
  {
    var pool := new CuttlePool.Init(1, 1, Some(1));
    var con := pool.MakeConnection();
    var con2 := pool.MakeConnection();
    PutTwoCreated(con, con2);
    var _ := pool.PutConnection(con);
    var _ := pool.PutConnection(con2);
    queued, size := |pool.idle|, pool.Size();
  }

  /** A connection handed out, closed and asked for again is the same connection. */
  method ReuseReturnedConnection() returns (first: Connection?, second: Connection?)
    ensures first != null && first == second
  {
    var pool := new CuttlePool.Init(1, 1, Some(1));
    assert HarvestIfEmpty(pool.State(), 1, {}) == Harvested(pool.State(), false);
    var r, _ := pool.GetConnection({}, AlwaysOpen);
    var handle := r.value;
    first := handle.connection;
    assert [] + [first] == [first];
    var closed := handle.Close();
    var r2, _ := pool.GetConnection({}, AlwaysOpen);
    second := r2.value.connection;
  }

  /**
   * A new pool after two requests, the first connection still referenced
   * while the second is asked for: both connections are new and tracked, and
   * nothing is queued.
   */
  method TwoHandedOut() returns (pool: CuttlePool, first: Connection, second: Connection)
    ensures fresh(pool) && pool.Valid() && pool.Consistent()
    ensures pool.capacity == 1 && pool.overflow == 1 && pool.timeout == Some(1)
    ensures pool.referencePool == [first, second] && pool.idle == [] && first != second
  {
    pool := new CuttlePool.Init(1, 1, Some(1));
    assert HarvestIfEmpty(pool.State(), 1, {}) == Harvested(pool.State(), false);
    var r1, _ := pool.GetConnection({}, AlwaysOpen);
    first := r1.value.connection;
    HarvestNoneLost(pool.State(), 1, {first});
    var r2, _ := pool.GetConnection({first}, AlwaysOpen);
    second := r2.value.connection;
  }

  /**
   * A pool of `capacity + overflow` = 2 connections, both still referenced:
   * the third request finds nothing lost, nothing queued and no room, and
   * the one-second wait expires.
   */
  method DepletedPool() returns (third: Result<PoolConnection, Error>)
    ensures third == Failure(Depleted)
  {
    var pool, c1, c2 := TwoHandedOut();
    HarvestNoneLost(pool.State(), 1, {c1, c2});
    var r3, _ := pool.GetConnection({c1, c2}, AlwaysOpen);
    third := r3;
  }

  /**
   * Two connections handed out; the first handle then loses its connection,
   * which nothing references any more.  The next request harvests it and
   * hands it out again instead of waiting.
   */
  method GetLostConnection() returns (lost: Connection, reclaimed: Result<PoolConnection, Error>)
    ensures reclaimed.Success? && reclaimed.value.connection == lost
  {
    var pool, kept;
    pool, lost, kept := TwoHandedOut();
    assert LostAmong([lost], [], {kept}) == [lost] by {
      assert [lost][..0] == [];
    }
    assert LostAmong([lost, kept], [], {kept}) == LostAmong([lost], [], {kept}) by {
      assert [lost, kept][..1] == [lost];
    }
    LostReusedFirst(pool.State(), 1, {kept});
    var r3, _ := pool.GetConnection({kept}, AlwaysOpen);
    reclaimed := r3;
  }

  /**
   * `PoolConnection.close` queues the connection and detaches the handle; a
   * second `close` fails because the handle no longer has a pool.
   */
  method CloseTwice() returns (first: Outcome<Error>, queued: nat, detached: bool, second: Outcome<Error>)
    ensures first == Pass && queued == 1 && detached && second == Fail(PoolDetached)
  {
    var pool := new CuttlePool.Init(1, 1, Some(1));
    var con := pool.MakeConnection();
    var handle := new PoolConnection(con, pool);
    first := handle.Close();
    queued := |pool.idle|;
    detached := handle.connection == null && handle.pool == null;
    second := handle.Close();
  }

  /** Connections handed out and returned, then `empty_pool`: nothing is tracked or queued. */
  method EmptyAfterReturns() returns (size: nat, queued: nat)
    ensures size == 0 && queued == 0
  {
    var pool := new CuttlePool.Init(1, 1, Some(1));
    assert HarvestIfEmpty(pool.State(), 1, {}) == Harvested(pool.State(), false);
    var r, _ := pool.GetConnection({}, AlwaysOpen);
    var handle := r.value;
    var _ := handle.Close();
    pool.EmptyPool();
    size, queued := pool.Size(), |pool.idle|;
  }
}

=== FILE: pool_spec.dfy ===
/**
 * The accounting of `CuttlePool` (cuttlepool.py) on values: the reference pool
 * `_reference_pool` (every connection the pool created and still tracks, in
 * creation order), the idle queue `_pool` (a FIFO bounded by `capacity`), and
 * the set of connections the pool has called `close()` on.  The class
 * `CuttlePoolModel.CuttlePool` updates its fields exactly as these functions
 * say; the lemmas here state what that accounting guarantees.
 */
module PoolSpec {
  import opened Wrappers

  /** The errors the pool code raises, named after their cause. */
  datatype Error =
    | CapacityNotPositive   // ValueError from the constructor: capacity <= 0
    | OverflowNegative      // ValueError from the constructor: overflow < 0
    | NotCreatedByPool      // ValueError from put_connection: not in the reference pool
    | Depleted              // AttributeError from get_connection: the timed wait expired
    | NegativeTimeout       // ValueError from the idle queue's timed wait: timeout < 0
    | WaitsForever          // get_connection with no timeout on a depleted pool never returns
    | IndexOutOfRange       // IndexError from the harvest loop reading past the shrunken list
    | NotInReferencePool    // ValueError from list.remove when a failed ping drops a connection
    | PoolDetached          // AttributeError from closing a handle whose pool was already cleared

  /** Reference pool, idle queue (oldest first) and the connections closed so far. */
  datatype PoolState<C> = PoolState(refPool: seq<C>, idle: seq<C>, closed: set<C>)

  ghost predicate Distinct<C>(s: seq<C>)
  {
    forall i, j :: 0 <= i < j < |s| ==> s[i] != s[j]
  }

  /**
   * The pool's own accounting: every queued connection is tracked, none is
   * queued twice, the queue respects its bound and no connection is tracked
   * twice.
   */
  ghost predicate Tracked<C>(s: PoolState<C>, capacity: nat)
  {
    && |s.idle| <= capacity
    && Distinct(s.idle)
    && Distinct(s.refPool)
    && (forall c :: c in s.idle ==> c in s.refPool)
  }

  /** The index of the first occurrence of `c` in `s`. */
  function FirstIndex<C(==)>(s: seq<C>, c: C): (i: nat)
    requires c in s
    ensures i < |s| && s[i] == c && c !in s[..i]
  {
    if s[0] == c then 0
    else
      var j := FirstIndex(s[1..], c);
      assert s[..j + 1] == [s[0]] + s[1..][..j];
      j + 1
  }

  /** Python's `list.remove`: drops the first occurrence of `c`. */
  function RemoveFirst<C(==)>(s: seq<C>, c: C): (r: seq<C>)
    requires c in s
    ensures |r| == |s| - 1
    ensures multiset(r) == multiset(s) - multiset{c}
  {
    assert s == [s[0]] + s[1..];
    if s[0] == c then s[1..] else [s[0]] + RemoveFirst(s[1..], c)
  }

  /**
   * The removal takes out the first occurrence of `c`: the elements before it
   * and the elements after it stay, in their order.
   */
  lemma {:induction false} RemoveFirstKeepsOrder<C>(s: seq<C>, c: C)
    requires c in s
    ensures RemoveFirst(s, c) == s[..FirstIndex(s, c)] + s[FirstIndex(s, c) + 1..]
  {
    if s[0] != c {
      var j := FirstIndex(s[1..], c);
      assert FirstIndex(s, c) == j + 1;
      RemoveFirstKeepsOrder(s[1..], c);
      SplitAfterHead(s, j);
    }
  }

  /** Cutting element `j` out of the tail of `s` is cutting element `j + 1` out of `s`. */
  lemma SplitAfterHead<C>(s: seq<C>, j: nat)
    requires j + 1 < |s|
    ensures [s[0]] + (s[1..][..j] + s[1..][j + 1..]) == s[..j + 1] + s[j + 2..]
  {
    assert s[..j + 1] == [s[0]] + s[1..][..j];
    assert s[j + 2..] == s[1..][j + 1..];
  }

  /** On a list without repetitions, removing `c` keeps exactly the other elements, once each. */
  lemma RemoveFirstDistinct<C>(s: seq<C>, c: C)
    requires c in s && Distinct(s)
    ensures Distinct(RemoveFirst(s, c))
    ensures forall x :: x in RemoveFirst(s, c) <==> x in s && x != c
  {
    var r := RemoveFirst(s, c);
    forall x
      ensures x in r <==> x in s && x != c
    {
      assert x in r <==> x in multiset(r);
      assert x in s <==> x in multiset(s);
      if x == c {
        assert multiset(s)[c] == 1 by { DistinctCountsOnce(s, c); }
      }
    }
    forall i, j | 0 <= i < j < |r|
      ensures r[i] != r[j]
    {
      assert r[i] in multiset(r);
      assert r[i] in multiset(s);
      DistinctCountsOnce(s, r[i]);
      if r[i] == r[j] {
        TwiceCountsTwice(r, i, j);
        assert false;
      }
    }
  }

  /** Dropping a tracked connection that is not queued keeps the accounting sound. */
  lemma DropKeepsTracked<C>(s: PoolState<C>, capacity: nat, c: C)
    requires Tracked(s, capacity) && c in s.refPool && c !in s.idle
    ensures Tracked(s.(refPool := RemoveFirst(s.refPool, c)), capacity)
  {
    RemoveFirstDistinct(s.refPool, c);
  }

  /** Removing a connection that was appended last, and only there, gives back the list before the append. */
  lemma {:induction false} RemoveFirstAppended<C>(s: seq<C>, c: C)
    requires c !in s
    ensures RemoveFirst(s + [c], c) == s
  {
    if s != [] {
      assert (s + [c])[1..] == s[1..] + [c];
      RemoveFirstAppended(s[1..], c);
      assert s == [s[0]] + s[1..];
    }
  }

  lemma {:induction false} DistinctCountsOnce<C>(s: seq<C>, c: C)
    requires c in s && Distinct(s)
    ensures multiset(s)[c] == 1
    decreases |s|
  {
    assert s == [s[0]] + s[1..];
    if s[0] == c {
      assert c !in s[1..];
    } else {
      DistinctCountsOnce(s[1..], c);
    }
  }

  lemma {:induction false} TwiceCountsTwice<C>(s: seq<C>, i: nat, j: nat)
    requires i < j < |s| && s[i] == s[j]
    ensures multiset(s)[s[i]] >= 2
    decreases |s|
  {
    assert s == [s[0]] + s[1..];
    if i == 0 {
      assert s[j] in s[1..];
    } else {
      TwiceCountsTwice(s[1..], i - 1, j - 1);
    }
  }

  /**
   * `put_connection` (cuttlepool.py:205-230): a connection the pool did not
   * create is refused; otherwise it goes to the back of the idle queue if the
   * queue has room, and is dropped from the reference pool and closed if not.
   * Only membership in the reference pool is checked, not in the queue.
   */
  function Put<C(==)>(s: PoolState<C>, capacity: nat, c: C): (r: Result<PoolState<C>, Error>)
    ensures r.Failure? <==> c !in s.refPool
    ensures r.Failure? ==> r.error == NotCreatedByPool
    // an accepted connection ends up queued or closed; nothing is reopened and nothing starts being tracked
    ensures r.Success? ==> c in r.value.idle || c in r.value.closed
    ensures r.Success? ==> multiset(r.value.refPool) <= multiset(s.refPool) && s.closed <= r.value.closed
    ensures r.Success? && |s.idle| <= capacity ==> |r.value.idle| <= capacity
    // with room it joins the back of the queue; with a full queue one copy of it stops being tracked
    ensures r.Success? && |s.idle| < capacity ==>
      r.value.idle == s.idle + [c] && r.value.refPool == s.refPool && r.value.closed == s.closed
    ensures r.Success? && |s.idle| >= capacity ==>
      && |r.value.refPool| == |s.refPool| - 1 && multiset(r.value.refPool) == multiset(s.refPool) - multiset{c}
      && r.value.idle == s.idle && r.value.closed == s.closed + {c}
  {
    if c !in s.refPool then Failure(NotCreatedByPool)
    else if |s.idle| < capacity then Success(s.(idle := s.idle + [c]))
    else Success(PoolState(RemoveFirst(s.refPool, c), s.idle, s.closed + {c}))
  }

  /**
   * What an accepted `put_connection` does to the counts: with room in the
   * queue, `c` is queued last and the size is unchanged; with a full queue, the
   * size drops by one, `c` is no longer tracked and is closed, and the queue
   * is unchanged.
   */
  lemma PutAccounting<C>(s: PoolState<C>, capacity: nat, c: C)
    requires c in s.refPool && Distinct(s.refPool)
    ensures var r := Put(s, capacity, c).value;
      && (|s.idle| < capacity ==>
            |r.refPool| == |s.refPool| && r.idle == s.idle + [c] && r.idle[|r.idle| - 1] == c && r.closed == s.closed)
      && (|s.idle| >= capacity ==>
            |r.refPool| == |s.refPool| - 1 && c !in r.refPool && r.idle == s.idle && c in r.closed)
  {
    if |s.idle| >= capacity {
      RemoveFirstDistinct(s.refPool, c);
    }
  }

  /** `put_connection` of a connection that is not already queued keeps the accounting. */
  lemma PutKeepsTracked<C>(s: PoolState<C>, capacity: nat, c: C)
    requires Tracked(s, capacity) && c in s.refPool && c !in s.idle
    ensures Tracked(Put(s, capacity, c).value, capacity)
    ensures |Put(s, capacity, c).value.refPool| <= |s.refPool|
  {
    var r := Put(s, capacity, c).value;
    if |s.idle| < capacity {
      assert r.idle == s.idle + [c];
      forall i, j | 0 <= i < j < |r.idle|
        ensures r.idle[i] != r.idle[j]
      {
        if j == |s.idle| {
          assert r.idle[i] == s.idle[i];
        }
      }
    } else {
      RemoveFirstDistinct(s.refPool, c);
    }
  }

  /**
   * The double put the source allows: with capacity 1, putting the same
   * connection twice first queues it, then drops it from the reference pool
   * and closes it while it is still queued, so a queued connection is no
   * longer tracked.
   */
  lemma DoublePutUntracksQueued<C>(c: C)
    ensures var once := Put(PoolState([c], [], {}), 1, c);
      && once == Success(PoolState([c], [c], {}))
      && Put(once.value, 1, c) == Success(PoolState([], [c], {c}))
      && !Tracked(Put(once.value, 1, c).value, 1)
  {
    assert [] + [c] == [c];
    assert RemoveFirst([c], c) == [] by { assert [c][1..] == []; }
    assert {} + {c} == {c};
    var twice := PoolState([], [c], {c});
    assert Put(PoolState([c], [c], {}), 1, c) == Success(twice);
    assert twice.idle[0] == c && c !in twice.refPool;
  }

  /**
   * The test "put_connection handles overflow": with capacity 1, two created
   * connections put back one after the other leave one queued connection and
   * one tracked connection; the second one is closed.
   */
  lemma PutTwoCreated<C>(a: C, b: C)
    requires a != b
    ensures var s1 := Put(PoolState([a, b], [], {}), 1, a).value;
      && s1 == PoolState([a, b], [a], {})
      && Put(s1, 1, b) == Success(PoolState([a], [a], {b}))
  {
    assert [] + [a] == [a];
    assert RemoveFirst([a, b], b) == [a] by {
      assert [a, b][1..] == [b];
      assert [b][1..] == [];
    }
    assert {} + {b} == {b};
    assert Put(PoolState([a, b], [a], {}), 1, b) == Success(PoolState([a], [a], {b}));
  }

  /**
   * The connections of `cs`, in order, that are neither queued in `idle` nor
   * in `inUse` (referenced from outside the pool).
   */
  function LostAmong<C(==)>(cs: seq<C>, idle: seq<C>, inUse: set<C>): (r: seq<C>)
    ensures forall c :: c in r ==> c in cs && c !in idle && c !in inUse
    ensures forall c :: c in cs && c !in idle && c !in inUse ==> c in r
    ensures (forall c :: c in cs ==> c in idle || c in inUse) ==> r == []
    ensures |r| <= |cs|
  {
    if cs == [] then []
    else
      var c := cs[|cs| - 1];
      assert cs == cs[..|cs| - 1] + [c];
      LostAmong(cs[..|cs| - 1], idle, inUse) + (if c !in idle && c !in inUse then [c] else [])
  }

  /**
   * The lost connections: tracked by the pool, not queued and not referenced
   * from outside it (cuttlepool.py:96-107 reads this off the interpreter's
   * reference count).
   */
  function Lost<C(==)>(s: PoolState<C>, inUse: set<C>): (r: seq<C>)
    ensures forall c :: c in r ==> c in s.refPool && c !in s.idle && c !in inUse
    ensures forall c :: c in s.refPool && c !in s.idle && c !in inUse ==> c in r
    ensures (forall c :: c in s.refPool ==> c in s.idle || c in inUse) ==> r == []
  {
    LostAmong(s.refPool, s.idle, inUse)
  }

  /** How `_harvest_lost_connections` ended: the state reached, and whether its index ran past the list. */
  datatype Harvested<C> = Harvested(state: PoolState<C>, overran: bool)

  /**
   * The harvest loop (cuttlepool.py:104-107) from index `idx` on: `n` is the
   * length of the reference pool when the loop started (`range` is computed
   * once) while `put_connection` may shorten the list under it; reading an
   * index at or past the current end raises IndexError.
   */
  function HarvestFrom<C(==)>(s: PoolState<C>, capacity: nat, inUse: set<C>, idx: nat, n: nat): Harvested<C>
    decreases n - idx
  {
    if idx >= n then Harvested(s, false)
    else if idx >= |s.refPool| then Harvested(s, true)
    else
      var c := s.refPool[idx];
      if c !in s.idle && c !in inUse then HarvestFrom(Put(s, capacity, c).value, capacity, inUse, idx + 1, n)
      else HarvestFrom(s, capacity, inUse, idx + 1, n)
  }

  function Harvest<C(==)>(s: PoolState<C>, capacity: nat, inUse: set<C>): Harvested<C>
  {
    HarvestFrom(s, capacity, inUse, 0, |s.refPool|)
  }

  /** Harvesting keeps the accounting, never grows the reference pool and never reopens a connection. */
  lemma {:induction false} HarvestKeepsTracked<C>(s: PoolState<C>, capacity: nat, inUse: set<C>, idx: nat, n: nat)
    requires Tracked(s, capacity)
    ensures Tracked(HarvestFrom(s, capacity, inUse, idx, n).state, capacity)
    ensures |HarvestFrom(s, capacity, inUse, idx, n).state.refPool| <= |s.refPool|
    ensures s.closed <= HarvestFrom(s, capacity, inUse, idx, n).state.closed
    decreases n - idx
  {
    if idx < n && idx < |s.refPool| {
      var c := s.refPool[idx];
      if c !in s.idle && c !in inUse {
        PutKeepsTracked(s, capacity, c);
        HarvestKeepsTracked(Put(s, capacity, c).value, capacity, inUse, idx + 1, n);
      } else {
        HarvestKeepsTracked(s, capacity, inUse, idx + 1, n);
      }
    }
  }

  /**
   * Going from `s` to `t` leaves every connection in `inUse` alone (queued,
   * tracked and closed as before), only stops tracking connections, only
   * closes more of them, and only appends to the queue.
   */
  ghost predicate Spares<C>(s: PoolState<C>, t: PoolState<C>, inUse: set<C>)
  {
    && multiset(t.refPool) <= multiset(s.refPool)
    && s.closed <= t.closed
    && s.idle <= t.idle
    && forall x | x in inUse ::
         && multiset(t.refPool)[x] == multiset(s.refPool)[x]
         && multiset(t.idle)[x] == multiset(s.idle)[x]
         && (x in t.closed <==> x in s.closed)
  }

  lemma SparesTransitive<C>(s: PoolState<C>, t: PoolState<C>, u: PoolState<C>, inUse: set<C>)
    requires Spares(s, t, inUse) && Spares(t, u, inUse)
    ensures Spares(s, u, inUse)
  {
    assert s.idle == t.idle[..|s.idle|] && t.idle == u.idle[..|t.idle|];
    assert s.idle == u.idle[..|s.idle|];
  }

  /** `put_connection` of a connection nobody else references spares every connection in use. */
  lemma PutSparesInUse<C>(s: PoolState<C>, capacity: nat, c: C, inUse: set<C>)
    requires c in s.refPool && c !in inUse
    ensures Spares(s, Put(s, capacity, c).value, inUse)
  {
    var p := Put(s, capacity, c).value;
    if |s.idle| < capacity {
      assert multiset(p.idle) == multiset(s.idle) + multiset{c};
      assert s.idle == p.idle[..|s.idle|];
    } else {
      assert s.idle == p.idle[..|s.idle|];
    }
  }

  /**
   * The harvest loop never touches a connection that is referenced from
   * outside the pool; it only stops tracking, closes and queues lost ones.
   */
  lemma {:induction false} HarvestSparesInUse<C>(s: PoolState<C>, capacity: nat, inUse: set<C>, idx: nat, n: nat)
    ensures Spares(s, HarvestFrom(s, capacity, inUse, idx, n).state, inUse)
    decreases n - idx
  {
    if idx < n && idx < |s.refPool| {
      var c := s.refPool[idx];
      if c !in s.idle && c !in inUse {
        var p := Put(s, capacity, c).value;
        PutSparesInUse(s, capacity, c, inUse);
        HarvestSparesInUse(p, capacity, inUse, idx + 1, n);
        SparesTransitive(s, p, HarvestFrom(p, capacity, inUse, idx + 1, n).state, inUse);
      } else {
        HarvestSparesInUse(s, capacity, inUse, idx + 1, n);
      }
    } else {
      assert s.idle == s.idle[..|s.idle|];
    }
  }

  /** Harvesting only shrinks the reference pool, whatever the queue holds. */
  lemma {:induction false} HarvestNeverGrows<C>(s: PoolState<C>, capacity: nat, inUse: set<C>, idx: nat, n: nat)
    requires Distinct(s.refPool)
    ensures Distinct(HarvestFrom(s, capacity, inUse, idx, n).state.refPool)
    ensures |HarvestFrom(s, capacity, inUse, idx, n).state.refPool| <= |s.refPool|
    ensures |s.idle| <= capacity ==> |HarvestFrom(s, capacity, inUse, idx, n).state.idle| <= capacity
    decreases n - idx
  {
    if idx < n && idx < |s.refPool| {
      var c := s.refPool[idx];
      if c !in s.idle && c !in inUse {
        if |s.idle| >= capacity {
          RemoveFirstDistinct(s.refPool, c);
        }
        HarvestNeverGrows(Put(s, capacity, c).value, capacity, inUse, idx + 1, n);
      } else {
        HarvestNeverGrows(s, capacity, inUse, idx + 1, n);
      }
    }
  }

  /**
   * On a list without repetitions the lost connections are repetition-free
   * and keep the list's order: each comes before the next in `cs`.
   */
  lemma {:induction false} LostAmongInOrder<C>(cs: seq<C>, idle: seq<C>, inUse: set<C>)
    requires Distinct(cs)
    ensures var r := LostAmong(cs, idle, inUse);
      && Distinct(r)
      && forall i, j | 0 <= i < j < |r| :: FirstIndex(cs, r[i]) < FirstIndex(cs, r[j])
    decreases |cs|
  {
    if cs != [] {
      var init := cs[..|cs| - 1];
      var c := cs[|cs| - 1];
      assert cs == init + [c];
      LostAmongInOrder(init, idle, inUse);
      var r0 := LostAmong(init, idle, inUse);
      var r := LostAmong(cs, idle, inUse);
      assert c !in init;
      forall x | x in init
        ensures FirstIndex(cs, x) == FirstIndex(init, x) < |init|
      {
        FirstIndexOfPrefix(init, c, x);
      }
      assert FirstIndex(cs, c) == |init| by { FirstIndexOfLast(init, c); }
      assert r0 <= r;
    }
  }

  /** No occurrence of `x` comes before the first one. */
  lemma {:induction false} FirstIndexAtMost<C>(s: seq<C>, x: C, j: nat)
    requires j < |s| && s[j] == x
    ensures FirstIndex(s, x) <= j
  {
    if s[0] != x {
      FirstIndexAtMost(s[1..], x, j - 1);
    }
  }

  lemma FirstIndexOfPrefix<C>(init: seq<C>, c: C, x: C)
    requires x in init
    ensures FirstIndex(init + [c], x) == FirstIndex(init, x)
  {
    var i := FirstIndex(init, x);
    assert (init + [c])[i] == x;
    FirstIndexAtMost(init + [c], x, i);
    var k := FirstIndex(init + [c], x);
    assert init[k] == x;
    FirstIndexAtMost(init, x, k);
  }

  lemma FirstIndexOfLast<C>(init: seq<C>, c: C)
    requires c !in init
    ensures FirstIndex(init + [c], c) == |init|
  {
  }

  /** A prefix of the reference pool holds no more lost connections than the whole. */
  lemma {:induction false} LostAmongPrefix<C>(cs: seq<C>, k: nat, idle: seq<C>, inUse: set<C>)
    requires k <= |cs|
    ensures |LostAmong(cs[..k], idle, inUse)| <= |LostAmong(cs, idle, inUse)|
    decreases |cs|
  {
    if k < |cs| {
      var init := cs[..|cs| - 1];
      assert cs[..k] == init[..k];
      LostAmongPrefix(init, k, idle, inUse);
    } else {
      assert cs[..k] == cs;
    }
  }

  /** Extending a prefix by one element extends its lost connections by at most that element. */
  lemma LostAmongStep<C>(cs: seq<C>, k: nat, inUse: set<C>)
    requires k < |cs|
    ensures LostAmong(cs[..k + 1], [], inUse)
         == LostAmong(cs[..k], [], inUse) + (if cs[k] !in inUse then [cs[k]] else [])
  {
    assert cs[..k + 1][..k] == cs[..k];
  }

  /** The connection the harvest loop reaches next is not queued yet. */
  lemma NextNotQueued<C>(ref: seq<C>, idx: nat, idle: seq<C>, inUse: set<C>)
    requires Distinct(ref) && idx < |ref|
    requires idle == LostAmong(ref[..idx], [], inUse)
    ensures ref[idx] !in idle
  {
  }

  /** One turn of the harvest loop while every lost connection seen so far is queued. */
  lemma HarvestStepQueues<C>(s: PoolState<C>, capacity: nat, inUse: set<C>, idx: nat)
    requires Distinct(s.refPool) && idx < |s.refPool|
    requires s.idle == LostAmong(s.refPool[..idx], [], inUse)
    requires |LostAmong(s.refPool, [], inUse)| <= capacity
    ensures var next := s.(idle := LostAmong(s.refPool[..idx + 1], [], inUse));
      HarvestFrom(s, capacity, inUse, idx, |s.refPool|) == HarvestFrom(next, capacity, inUse, idx + 1, |s.refPool|)
  {
    var ref := s.refPool;
    var c := ref[idx];
    var next := s.(idle := LostAmong(ref[..idx + 1], [], inUse));
    LostAmongStep(ref, idx, inUse);
    NextNotQueued(ref, idx, s.idle, inUse);
    if c !in inUse {
      LostAmongPrefix(ref, idx + 1, [], inUse);
      assert |s.idle| < capacity;
      assert Put(s, capacity, c).value == next;
    } else {
      assert s.idle + [] == s.idle;
      assert next == s;
    }
  }

  /**
   * The harvest loop from index `idx` on, when the lost connections before
   * `idx` are exactly what is queued and all of them fit in the queue: it
   * queues the remaining lost connections in order and completes.
   */
  lemma {:induction false} HarvestFromQueuesLost<C>(s: PoolState<C>, capacity: nat, inUse: set<C>, idx: nat)
    requires Distinct(s.refPool) && idx <= |s.refPool|
    requires s.idle == LostAmong(s.refPool[..idx], [], inUse)
    requires |LostAmong(s.refPool, [], inUse)| <= capacity
    ensures HarvestFrom(s, capacity, inUse, idx, |s.refPool|)
         == Harvested(s.(idle := LostAmong(s.refPool, [], inUse)), false)
    decreases |s.refPool| - idx
  {
    if idx == |s.refPool| {
      assert s.refPool[..idx] == s.refPool;
    } else {
      HarvestStepQueues(s, capacity, inUse, idx);
      var next := s.(idle := LostAmong(s.refPool[..idx + 1], [], inUse));
      HarvestFromQueuesLost(next, capacity, inUse, idx + 1);
    }
  }

  /**
   * Harvesting an empty queue when the lost connections fit in it: each lost
   * connection is handed to `put_connection` and queued, oldest first, and
   * nothing else changes; the loop completes without an error.
   */
  lemma HarvestQueuesLost<C>(s: PoolState<C>, capacity: nat, inUse: set<C>)
    requires s.idle == [] && Distinct(s.refPool)
    requires |Lost(s, inUse)| <= capacity
    ensures Harvest(s, capacity, inUse) == Harvested(s.(idle := Lost(s, inUse)), false)
  {
    assert s.refPool[..0] == [];
    HarvestFromQueuesLost(s, capacity, inUse, 0);
  }

  /** When every tracked connection is still referenced, harvesting an empty queue changes nothing. */
  lemma HarvestNoneLost<C>(s: PoolState<C>, capacity: nat, inUse: set<C>)
    requires s.idle == [] && Distinct(s.refPool)
    requires forall c :: c in s.refPool ==> c in inUse
    ensures Harvest(s, capacity, inUse) == Harvested(s, false)
  {
    HarvestQueuesLost(s, capacity, inUse);
    assert s.(idle := []) == s;
  }

  /** `list.remove` of the middle one of three connections keeps the other two in order. */
  lemma RemoveMiddle<C>(a: C, b: C, c: C)
    requires a != b
    ensures RemoveFirst([a, b, c], b) == [a, c]
  {
  }

  /** The first `put_connection` of the harvest run in `HarvestOverrun`: the queue has room. */
  lemma OverrunFirstPut<C>(a: C, b: C, c: C)
    ensures Put(PoolState([a, b, c], [], {}), 1, a) == Success(PoolState([a, b, c], [a], {}))
  {
    assert [] + [a] == [a];
  }

  /** The second `put_connection` of the harvest run in `HarvestOverrun`: the queue is full. */
  lemma OverrunSecondPut<C>(a: C, b: C, c: C)
    requires a != b
    ensures Put(PoolState([a, b, c], [a], {}), 1, b) == Success(PoolState([a, c], [a], {b}))
  {
    assert [a, b, c][1..] == [b, c];
    assert !(|[a]| < 1);
    RemoveMiddle(a, b, c);
    assert {} + {b} == {b};
  }

  /**
   * The harvest loop walking a list it shortens: with capacity 1 and three
   * lost connections, the first is queued, the second is dropped and closed,
   * the third moves into the slot just visited and is skipped, and the loop
   * then reads index 2 of a two-element list (IndexError).  The skipped
   * connection stays lost.
   */
  lemma HarvestOverrun<C>(a: C, b: C, c: C)
    requires a != b && b != c && a != c
    ensures Harvest(PoolState([a, b, c], [], {}), 1, {}) == Harvested(PoolState([a, c], [a], {b}), true)
    ensures c in Lost(PoolState([a, c], [a], {b}), {})
  {
    var s0 := PoolState([a, b, c], [], {});
    var s1 := PoolState([a, b, c], [a], {});
    var s2 := PoolState([a, c], [a], {b});
    OverrunFirstPut(a, b, c);
    OverrunSecondPut(a, b, c);
    assert HarvestFrom(s0, 1, {}, 0, 3) == HarvestFrom(s1, 1, {}, 1, 3);
    assert HarvestFrom(s1, 1, {}, 1, 3) == HarvestFrom(s2, 1, {}, 2, 3);
  }

  /**
   * Steps 1 and 2 of `get_connection` (cuttlepool.py:153-154): lost
   * connections are harvested only when the idle queue is empty.
   */
  function HarvestIfEmpty<C(==)>(s: PoolState<C>, capacity: nat, inUse: set<C>): (h: Harvested<C>)
    ensures s.idle != [] ==> h == Harvested(s, false)
    ensures Spares(s, h.state, inUse)
  {
    if s.idle == [] then
      HarvestSparesInUse(s, capacity, inUse, 0, |s.refPool|);
      Harvest(s, capacity, inUse)
    else Harvested(s, false)
  }

  /**
   * A lost connection is reused before a new one is made: when the queue is
   * empty and the lost connections fit in it, the harvest completes and the
   * connection `get_connection` then takes from the queue is the oldest lost
   * one, with the reference pool unchanged.
   */
  lemma LostReusedFirst<C>(s: PoolState<C>, capacity: nat, inUse: set<C>)
    requires s.idle == [] && Distinct(s.refPool)
    requires 0 < |Lost(s, inUse)| <= capacity
    ensures var h := HarvestIfEmpty(s, capacity, inUse);
      && !h.overran
      && h.state.refPool == s.refPool
      && |h.state.idle| > 0
      && h.state.idle[0] == Lost(s, inUse)[0]
      && h.state.idle[0] in s.refPool && h.state.idle[0] !in inUse
  {
    HarvestQueuesLost(s, capacity, inUse);
  }

  /**
   * How the blocking `self._pool.get(timeout=...)` ends on a depleted pool
   * (cuttlepool.py:165-169); `TakeConnection` fails with it.  The pool's lock is held while waiting, so no
   * other thread can put a connection back: with no timeout the call never
   * returns, a negative timeout is refused by the queue with ValueError, and
   * otherwise the wait expires and the pool reports that it is depleted.
   */
  function ExpiredWait(timeout: Option<int>): (e: Error)
    ensures timeout.None? <==> e == WaitsForever
    ensures e == NegativeTimeout <==> timeout.Some? && timeout.value < 0
    ensures e == Depleted <==> timeout.Some? && timeout.value >= 0
  {
    match timeout
    case None => WaitsForever
    case Some(t) => if t < 0 then NegativeTimeout else Depleted
  }

  /**
   * A request on a pool whose every tracked connection is in use and whose
   * queue is empty: the harvest reclaims nothing and changes nothing.  When no
   * connection can be created either, `TakeConnection` then fails with
   * `ExpiredWait(timeout)`; the last two clauses recall what that outcome is.
   */
  lemma DepletedPoolWaits<C>(s: PoolState<C>, capacity: nat, inUse: set<C>, timeout: Option<int>)
    requires s.idle == [] && Distinct(s.refPool)
    requires forall c :: c in s.refPool ==> c in inUse
    ensures HarvestIfEmpty(s, capacity, inUse) == Harvested(s, false)
    ensures ExpiredWait(timeout) == WaitsForever <==> timeout.None?
    ensures ExpiredWait(timeout) == Depleted <==> timeout.Some? && timeout.value >= 0
  {
    HarvestNoneLost(s, capacity, inUse);
  }
}

=== FILE: wrappers.dfy ===
/** Failure-carrying results, standing for the exceptions the Python code raises. */
module Wrappers {

  /** A value that may be absent (Python's `None`). */
  datatype Option<+T> = None | Some(value: T)

  /** A value, or the error that was raised instead of returning it. */
  datatype Result<+R, +E> = Success(value: R) | Failure(error: E)

  /** Either the call returned normally, or it raised `error`. */
  datatype Outcome<+E> = Pass | Fail(error: E)
}
